=== FILE: README.md ===
# LED-control text protocol: a Dafny model

A Dafny model of the text-command protocol that links the three parts of
the LED-control system, with proofs about it:

- the **phone app** (v1 `App.js`) keeps a WebSocket to the network-facing board. It sends
  `ON` / `OFF` when the user toggles, updates its LED view from `STATUS:ON` /
  `STATUS:OFF`, and a watchdog closes a connection that has been silent for
  more than 4000 ms;
- the **network-facing board** (v2 top controller, ESP-IDF) bridges WebSocket
  text frames to UART command lines (`turn_ON_led\n`, `turn_OFF_led\n`) and
  answers with status frames. It also keeps a Wi‑Fi "connected" bit that drives a
  status LED;
- the **LED board** in three revisions:
  - v2 (ESP-IDF) reads a raw chunk and cuts it at the first `\n`, `\r` or NUL, without trimming;
  - v1 (Arduino) reads up to `\n` and trims whitespace;
  - the current firmware only answers `PING` with `PONG` and blinks its LED.

Every piece is modelled as pure functions over immutable records. Text is
`seq<char>`. A C string is the part of a buffer before its first NUL,
because `strcmp` and `strchr` stop there. Time is an integer `now` argument
in milliseconds. Timers become events.

Modules, one per source file or component:

| file | module | models |
|---|---|---|
| `common.dfy` | `Common` | `Option`, pin `Level`, `TakeUntil` (cut at the first terminator), `CString`, Arduino `isspace` / `trim` |
| `arduino_serial.dfy` | `ArduinoSerial` | `readStringUntil('\n')`, `println`, "the line says this word" |
| `top_controller.dfy` | `TopController` | `send_uart_command`, `ws_handler`, `wifi_event_handler`, `status_led_task` |
| `bottom_v2.dfy` | `BottomV2` | `init_led`, `uart_rx_task` (read, decode, dispatch) |
| `bottom_v1.dfy` | `BottomV1` | `TaskUART` of the v1 LED board |
| `responder.dfy` | `Responder` | `TaskUART` (PING/PONG) and `TaskBlink` of the current LED board |
| `mobile_app.dfy` | `MobileApp` | `connect`, `onopen`, `onclose`, `onmessage`, `toggleSwitch`, the watchdog |
| `end_to_end.dfy` | `EndToEnd` | framing round trips and one full toggle exchange |

Points about the firmware that the model makes explicit:
- The v2 LED board does not trim whitespace. It only cuts at the first `\n`, `\r` or NUL, so `" turn_ON_led"` is an unknown command there (`BottomV2.BlanksAreNotTrimmed`). The v1 and current boards do trim.
- No board sends PING and then waits for PONG against a deadline. The only PING sender is the app's watchdog. It checks the time since the last message of any kind.
- Arduino's `readStringUntil` returns whatever bytes arrived, even when no newline came before the timeout. So the v1 and current boards act on a final line that has no newline (`ArduinoSerial.ReadStringUntil`).

## Model

| member | source | states |
|---|---|---|
| Common.Negate | firmware/bottom_controller/src/main.cpp:42 | `!digitalRead` gives the other level, never the same one |
| Common.TakeUntil | version/v2_stable_led_control/firmware/bottom_controller/src/main.c:77-78 | Writing NUL over the first terminator leaves a prefix of the text that holds no terminator and stops at a terminator or at the end, so it is the longest such prefix |
| Common.CString | version/v2_stable_led_control/firmware/top_controller/src/main.c:80 | The C string in a buffer is a prefix of it that holds no NUL and stops at the first NUL or at the end; with no NUL the whole buffer |
| Common.CStringTerminated | version/v2_stable_led_control/firmware/top_controller/src/main.c:71-73 | Reading the payload into a zeroed buffer one byte longer gives the same C string as the payload itself |
| Common.TakeUntilThenTakeUntil | version/v2_stable_led_control/firmware/bottom_controller/src/main.c:72-78 | Writing NUL over the first `\n` and then over the first `\r` of a C string equals cutting once at the first of NUL, `\n`, `\r` |
| Common.TakeUntilFramed | version/v2_stable_led_control/firmware/bottom_controller/src/main.c:77 | A text without terminators followed by a terminator and anything else is cut back to exactly the text |
| Common.Trim | version/v1_stable_led_control/firmware/bottom_controller/main.cpp:32 | The trimmed text is no longer than the input, has no whitespace at either end, and is empty for an all-whitespace input |
| Common.TrimPadded | version/v1_stable_led_control/firmware/bottom_controller/main.cpp:32 | Trim undoes whitespace padding: padding a trimmed text with whitespace on both sides and trimming gives the text back |
| Common.TrimSplits | version/v1_stable_led_control/firmware/bottom_controller/main.cpp:32 | Every text is its trim with all-whitespace text before and after it |
| Common.TrimIdempotent | version/v1_stable_led_control/firmware/bottom_controller/main.cpp:32 | Trimming twice is trimming once |
| ArduinoSerial.ReadStringUntil | version/v1_stable_led_control/firmware/bottom_controller/main.cpp:31 | The line read holds no newline; the input is the line, a newline and the remaining bytes, or, when no newline arrived, the whole input with nothing remaining |
| ArduinoSerial.Println | firmware/bottom_controller/src/main.cpp:29 | `println` sends the text followed by exactly CR LF |
| ArduinoSerial.TrimmedLineIs | version/v1_stable_led_control/firmware/bottom_controller/main.cpp:32-35 | For a word without whitespace at its ends, the trimmed line equals the word if and only if the line is that word padded with whitespace |
| ArduinoSerial.PaddedLineReadBack | version/v1_stable_led_control/firmware/bottom_controller/main.cpp:31-32 | A whitespace-padded word sent as one line is read as that padded line, the bytes after it stay queued, and trimming gives back the word |
| TopController.SendUartCommand | version/v2_stable_led_control/firmware/top_controller/src/main.c:40-46 | The UART receives the command's bytes up to its first NUL (all of them when it has none) and then one newline; for a command without NUL that is exactly command + newline |
| TopController.CommandLines | version/v2_stable_led_control/firmware/top_controller/src/main.c:82-94 | The two forwarded lines are exactly `turn_ON_led\n` and `turn_OFF_led\n` |
| TopController.ForwardedLine | version/v2_stable_led_control/firmware/top_controller/src/main.c:80-102 | A UART line is forwarded if and only if the word is `ON` or `OFF`; the ON line if and only if `ON`, the OFF line if and only if `OFF` |
| TopController.Reply | version/v2_stable_led_control/firmware/top_controller/src/main.c:84-111 | A reply is sent if and only if the word is `ON`, `OFF` or `PING`. Each reply is `STATUS:ON`, `STATUS:OFF` or `PONG` respectively, and its hard-coded length (9, 10, 4) equals the length of its text |
| TopController.WsHandler | version/v2_stable_led_control/firmware/top_controller/src/main.c:50-116 | The return code is ESP_OK exactly for the handshake, an empty frame, or two successful receives. The handshake, receive errors and empty frames cause no UART write and no reply. A delivered payload acts on its text up to the first NUL |
| TopController.WsIgnoresNearMisses | version/v2_stable_led_control/firmware/top_controller/src/main.c:80-111 | Matching is exact and case-sensitive: `on`, `ON `, `Ping` and the empty frame cause no UART write and no reply |
| TopController.WsStopsAtNul | version/v2_stable_led_control/firmware/top_controller/src/main.c:71-80 | Bytes after a NUL in a payload never affect what the handler does |
| TopController.OnWifiEvent | version/v2_stable_led_control/firmware/top_controller/src/main.c:139-161 | Only GOT_IP and STA_DISCONNECTED change the connected bit: GOT_IP sets it and starts the server, STA_DISCONNECTED clears it. STA_START and STA_DISCONNECTED, and only they, request a (re)connection |
| TopController.ConnectedIffGotIpSinceDisconnect | version/v2_stable_led_control/firmware/top_controller/src/main.c:146-160 | After any run of events from a fresh event group, the bit is set if and only if some GOT_IP happened with no STA_DISCONNECTED after it |
| TopController.StatusLedPass | version/v2_stable_led_control/firmware/top_controller/src/main.c:239-258 | Each pass ends with the status LED at 0; the pass writes only 0 if and only if the connected bit is set, otherwise it blinks |
| TopController.StatusLedDarkIffConnected | version/v2_stable_led_control/firmware/top_controller/src/main.c:242-257 | After any run of Wi-Fi events the status LED stays dark exactly when an IP was obtained and not lost since |
| BottomV2.ReadBytes | version/v2_stable_led_control/firmware/bottom_controller/src/main.c:67-72 | A read takes a prefix of the queued bytes, shorter than BUF_SIZE, so `data[len]` is inside the buffer; bytes stay queued only when the read was full |
| BottomV2.DecodeChunk | version/v2_stable_led_control/firmware/bottom_controller/src/main.c:72-78 | The decoded line is the longest prefix of the chunk with no `\n`, `\r` or NUL: a prefix, free of them, followed by one of them or by the end |
| BottomV2.DecodeIdempotent | version/v2_stable_led_control/firmware/bottom_controller/src/main.c:77-78 | Decoding a decoded line leaves it unchanged |
| BottomV2.DecodeIsFirstLine | version/v2_stable_led_control/firmware/bottom_controller/src/main.c:72-85 | For a text without line ends, decoding a chunk gives that text if and only if the chunk starts with it followed by a line end or the end of the chunk |
| BottomV2.RxStep | version/v2_stable_led_control/firmware/bottom_controller/src/main.c:67-95 | A failed or zero-length read changes nothing and logs nothing. A chunk whose first line is `turn_ON_led` sets the LED to 1, one whose first line is `turn_OFF_led` sets it to 0, and any other chunk leaves the LED as it was. A warning is logged if and only if the first line is non-empty and not a command |
| BottomV2.RxStepIdempotent | version/v2_stable_led_control/firmware/bottom_controller/src/main.c:81-88 | Handling the same chunk twice leaves the LED where handling it once did, with no toggling |
| BottomV2.OnlyFirstLineCounts | version/v2_stable_led_control/firmware/bottom_controller/src/main.c:77-84 | The chunk `turn_ON_led\nturn_OFF_led\n` leaves the LED at 1 |
| BottomV2.BlanksAreNotTrimmed | version/v2_stable_led_control/firmware/bottom_controller/src/main.c:74-94 | ` turn_ON_led`, `turn_ON_led ` and ` turn_OFF_led` are unknown and leave the LED unchanged |
| BottomV2.ListenShowsLatestCommand | version/v2_stable_led_control/firmware/bottom_controller/src/main.c:64-96 | After any run of reads the LED shows the level asked for by the latest chunk whose first line is a command, or its earlier level if there is none |
| BottomV2.StaysOffUntilOnCommand | version/v2_stable_led_control/firmware/bottom_controller/src/main.c:22-29 | Starting from level 0, the LED stays at 0 through any run of reads in which no chunk's first line is `turn_ON_led` |
| BottomV1.TaskUartStep | version/v1_stable_led_control/firmware/bottom_controller/main.cpp:27-54 | With nothing available, nothing changes. Otherwise one line is consumed. A line that is `turn_ON_led` padded with whitespace sets HIGH and prints `Command: LED ON`, and likewise OFF sets LOW. Any other line leaves the LED and is printed if and only if it is not all whitespace |
| BottomV1.PaddedCommandStep | version/v1_stable_led_control/firmware/bottom_controller/main.cpp:31-44 | A command padded with whitespace (no newline) sets the LED accordingly and leaves the bytes after its newline queued |
| BottomV1.ToleratesPadding | version/v1_stable_led_control/firmware/bottom_controller/main.cpp:31-35 | `  turn_ON_led\r\n` sets the LED HIGH |
| BottomV1.RepeatedLineIdempotent | version/v1_stable_led_control/firmware/bottom_controller/main.cpp:35-44 | The same line received twice in a row leaves the LED where the first one put it |
| BottomV1.BurstHandledLineByLine | version/v1_stable_led_control/firmware/bottom_controller/main.cpp:27-54 | `turn_ON_led\nturn_OFF_led\n` is handled line by line and leaves the LED LOW with nothing queued |
| BottomV1.StaysLowUntilOnLine | version/v1_stable_led_control/firmware/bottom_controller/main.cpp:20-44 | The task starts the LED LOW, and it stays LOW through any run of lines none of which says `turn_ON_led` |
| Responder.ListenerStep | firmware/bottom_controller/src/main.cpp:14-34 | The listener never changes the LED. It consumes one line when bytes are available. It appends exactly `PONG\r\n` if and only if the line is `PING` padded with whitespace, and otherwise writes nothing |
| Responder.BlinkStep | firmware/bottom_controller/src/main.cpp:42 | A blink step changes the LED level and nothing else |
| Responder.BlinkTwiceRestores | firmware/bottom_controller/src/main.cpp:42 | Two blink steps restore the board |
| Responder.PaddedPingAnswered | firmware/bottom_controller/src/main.cpp:23-30 | `PING` with blanks or CR around it is consumed and answered with exactly one `PONG\r\n` |
| Responder.OtherLinesUnanswered | firmware/bottom_controller/src/main.cpp:23-26 | Any other line is consumed with no reply and no LED change |
| MobileApp.Connect | version/v1_stable_led_control/firmware/mobile-app/App.js:47-55 | With an open or connecting socket, connect does nothing. Otherwise it shows "Connecting..." and holds a new socket in the CONNECTING state. Connection, LED view, heartbeat and timers are untouched |
| MobileApp.Mount | version/v1_stable_led_control/firmware/mobile-app/App.js:7-15 | On mount the app holds a CONNECTING socket, shows "Connecting...", is disconnected, shows the LED off, has no timers armed, and `lastPongTime` is the mount time |
| MobileApp.OnOpen | version/v1_stable_led_control/firmware/mobile-app/App.js:57-66 | onopen makes the app connected and Online, cancels the reconnect, starts the watchdog with `lastPongTime` reset to now, and keeps the LED view |
| MobileApp.OnClose | version/v1_stable_led_control/firmware/mobile-app/App.js:68-80 | onclose makes the app disconnected, stops the watchdog, schedules a reconnect, and keeps the LED view and heartbeat |
| MobileApp.OnMessage | version/v1_stable_led_control/firmware/mobile-app/App.js:86-93 | Every message sets `lastPongTime` to now. The LED view is on if and only if the message is `STATUS:ON`, or it was on and the message is not `STATUS:OFF`. Nothing else changes |
| MobileApp.Toggle | version/v1_stable_led_control/firmware/mobile-app/App.js:105-109 | Sends `ON` if and only if connected with the view off, `OFF` if and only if connected with the view on, and nothing if and only if disconnected |
| MobileApp.WatchdogTick | version/v1_stable_led_control/firmware/mobile-app/App.js:26-43 | A tick sends `PING` if and only if the watchdog runs and the socket is OPEN. It closes the socket if and only if, in addition, strictly more than 4000 ms passed since the last message. A tick that does not close leaves the whole app unchanged, and a closing tick changes only the socket |
| MobileApp.ReconnectFires | version/v1_stable_led_control/firmware/mobile-app/App.js:76-79 | The reconnect timer does nothing unless scheduled. When it fires on a closed socket, a new socket is connecting and "Connecting..." is shown. Either way it leaves the connection flag, the LED view, the heartbeat and the watchdog untouched, and nothing stays scheduled |
| MobileApp.RunKeepsCoherent | version/v1_stable_led_control/firmware/mobile-app/App.js:57-80 | Every run of events keeps three things in agreement: `isConnected`, the watchdog and the Online status. A reconnect is pending only while disconnected |
| MobileApp.MountedAppCoherent | version/v1_stable_led_control/firmware/mobile-app/App.js:96-103 | From mounting, every run of events leaves the app coherent |
| MobileApp.LedViewShowsLatestStatus | version/v1_stable_led_control/firmware/mobile-app/App.js:86-93 | After any run of events the LED view is the latest status reported, or its earlier value if none; PONG and other messages never move it |
| MobileApp.WatchdogBoundary | version/v1_stable_led_control/firmware/mobile-app/App.js:37-38 | 4000 ms of silence is not dead, 4001 ms is |
| MobileApp.MessageKeepsAlive | version/v1_stable_led_control/firmware/mobile-app/App.js:36-41 | A tick no later than 4000 ms after any message leaves an open socket open |
| EndToEnd.CommandsAgree | version/v2_stable_led_control/firmware/bottom_controller/src/main.c:81-85 | The v2 and v1 LED boards compare against exactly the command texts the bridge forwards |
| EndToEnd.FramingRoundTripV2 | version/v2_stable_led_control/firmware/top_controller/src/main.c:43-44 | A command without `\n`, `\r` or NUL, framed by the top board and fitting in one read, is decoded by the v2 LED board back to exactly the command, with nothing left queued |
| EndToEnd.LongCommandIsCut | version/v2_stable_led_control/firmware/bottom_controller/src/main.c:67 | For any command without line ends, the first read of its frame decodes to a prefix of the command |
| EndToEnd.FramingRoundTripV1 | version/v2_stable_led_control/firmware/top_controller/src/main.c:43-44 | A command without newline, NUL or edge whitespace, framed by the top board, is read and trimmed by the v1 LED board back to the command, leaving what follows queued |
| EndToEnd.PongReadsBack | firmware/bottom_controller/src/main.cpp:29 | The responder's `println("PONG")` reads back through `readStringUntil` and `trim` as exactly `PONG` |
| EndToEnd.BridgeForwards | version/v2_stable_led_control/firmware/top_controller/src/main.c:80-102 | Payload `ON` writes exactly the ON command and a newline and replies `STATUS:ON`; `OFF` writes exactly the OFF command and a newline and replies `STATUS:OFF` |
| EndToEnd.V2Obeys | version/v2_stable_led_control/firmware/bottom_controller/src/main.c:81-88 | The bytes the bridge sends for the ON command, read by the v2 LED board, set 1, and those for the OFF command set 0, from any level |
| EndToEnd.V1Obeys | version/v1_stable_led_control/firmware/bottom_controller/main.cpp:35-44 | The bytes the bridge sends for the ON command set the v1 LED board HIGH, and those for the OFF command set it LOW, from any level, leaving what follows queued |
| EndToEnd.V1ObeysLine | version/v1_stable_led_control/firmware/bottom_controller/main.cpp:31-44 | A forwarded command line followed by any bytes sets the level the command names and leaves those bytes queued |
| EndToEnd.ToggleAgreesV2 | version/v1_stable_led_control/firmware/mobile-app/App.js:105-109 | One toggle exchange in a connected app goes app → bridge → v2 board → status reply → app. It flips the app's LED view, and afterwards the LED is on if and only if the view says so, whatever the LED was before |
| EndToEnd.ToggleAgreesV1 | version/v1_stable_led_control/firmware/mobile-app/App.js:105-109 | The same agreement holds with the v1 LED board |
| EndToEnd.PingKeepsViewAndLed | version/v2_stable_led_control/firmware/top_controller/src/main.c:103-111 | Payload `PING` writes nothing to the UART and replies `PONG`. That reply refreshes the app's heartbeat and leaves its LED view unchanged |

## Left out

- Wi‑Fi bring-up, static IP and DNS setup, NVS initialisation, UART and GPIO configuration are left out. They are calls into ESP-IDF and Arduino with no logic of their own.
- The WebSocket handshake and framing (RFC 6455), done by `esp_http_server`, are left out. The two `httpd_ws_recv_frame` results are parameters of `WsRequest`, and the result of `httpd_ws_send_frame` (ignored by the source) is not modelled.
- FreeRTOS tasks, priorities, `vTaskDelay`, the blink and status periods, and the 20 ms / 50 ms read timeouts are left out. A read is "a chunk arrives" and a blink is one step. Nothing models a line split across two reads by timing.
- BottomV2.ReadBytes: it takes every queued byte up to `BUF_SIZE - 1`, as if all of them had arrived before the read timed out. A short read caused by timing is not modelled.
- Heap allocation is left out: the unchecked `calloc` in `ws_handler` and the `malloc` in `uart_rx_task`.
- TopController.OnWifiEvent: the `start_webserver` call on GOT_IP is only a `StartServer` action. What a second start does is not modelled.
- Log output is left out, except the v2 LED board's info and warning lines and the v1 LED board's console lines. The bridge's logs and the responder's console prints are outside the model.
- Embedded NUL bytes inside Arduino `String` values are not modelled. The Arduino boards compare lines as plain character sequences.
- `uart_write_bytes` is called twice per command, but the model keeps only the concatenated bytes on the wire.
- React rendering is left out: styling, the status-text colours, stale closures in `toggleSwitch`, and the unmount cleanup in `useEffect`. `MobileApp.Toggle` returns what is handed to `ws.send`. Whether the browser delivers it on a closing socket is not modelled.
- The empty `onerror` handler is left out, and so is the `try`/`catch` around the watchdog's `send`. Sending on an OPEN socket does not throw.
- `firmware/top_controller/src/main.cpp` is not part of this model: it only prints a heartbeat. The same goes for `firmware/mobile-app/App.js`, a UI with a local boolean only.
- BottomV1.StaysLowUntilOnLine: the run feeds each line to the task on its own, newline included. Several lines queued at once are covered step by step by `BottomV1.TaskUartStep`, but not by this run lemma.

=== FILE: arduino_serial.dfy ===
/**
 The Arduino `Serial2` line discipline shared by the Arduino-based LED
 boards: `readStringUntil('\n')` followed by `String::trim()` on the way in,
 `println` on the way out.
 */
module ArduinoSerial {
  import opened Common

  /** `readStringUntil('\n')` over the bytes received so far: the text
      before the first newline, with that newline consumed. Without a newline
      the read times out and returns everything that arrived. */
  function ReadStringUntil(rx: seq<char>): (r: (seq<char>, seq<char>))
    ensures '\n' !in r.0
    ensures rx == r.0 + "\n" + r.1 || (rx == r.0 && r.1 == [])
  {
    var line := TakeUntil(rx, {'\n'});
    if |line| < |rx| then
      assert rx == line + "\n" + rx[|line| + 1..];
      (line, rx[|line| + 1..])
    else
      (line, [])
  }

  /** `println(s)`: the text followed by a carriage return and a newline. */
  function Println(s: seq<char>): (bytes: seq<char>)
    ensures |bytes| == |s| + 2 && bytes[..|s|] == s
    ensures bytes[|s|..] == "\r\n"
  {
    s + "\r\n"
  }

  /** The line holds `word` and nothing but whitespace around it. */
  ghost predicate LineSays(line: seq<char>, word: seq<char>)
  {
    exists i, j :: 0 <= i <= j <= |line| && line[i..j] == word
                   && AllSpace(line[..i]) && AllSpace(line[j..])
  }

  lemma TrimSays(line: seq<char>)
    ensures LineSays(line, Trim(line))
  {
    TrimSplits(line);
  }

  lemma SaysTrims(line: seq<char>, word: seq<char>, i: nat, j: nat)
    requires Trimmed(word)
    requires i <= j <= |line| && line[i..j] == word
    requires AllSpace(line[..i]) && AllSpace(line[j..])
    ensures Trim(line) == word
  {
    assert line == line[..i] + word + line[j..];
    TrimPadded(line[..i], word, line[j..]);
  }

  /** Comparing the trimmed line with a word that has no whitespace at its
      ends accepts exactly the lines that say that word. */
  lemma TrimmedLineIs(line: seq<char>, word: seq<char>)
    requires Trimmed(word)
    ensures Trim(line) == word <==> LineSays(line, word)
  {
    TrimSays(line);
    if LineSays(line, word) {
      var i, j :| 0 <= i <= j <= |line| && line[i..j] == word
                  && AllSpace(line[..i]) && AllSpace(line[j..]);
      SaysTrims(line, word, i, j);
    }
  }

  /** A word padded with whitespace that holds no newline, sent as one line,
      is read back and trimmed to the word itself. */
  lemma PaddedLineReadBack(pre: seq<char>, word: seq<char>, post: seq<char>, rest: seq<char>)
    requires AllSpace(pre) && AllSpace(post) && Trimmed(word)
    requires '\n' !in pre && '\n' !in word && '\n' !in post
    ensures ReadStringUntil(pre + word + post + "\n" + rest).0 == pre + word + post
    ensures ReadStringUntil(pre + word + post + "\n" + rest).1 == rest
    ensures Trim(ReadStringUntil(pre + word + post + "\n" + rest).0) == word
  {
    var line := pre + word + post;
    assert Avoids(line, {'\n'});
    TakeUntilFramed(line, '\n', rest, {'\n'});
    assert line + "\n" + rest == line + ['\n'] + rest;
    TrimPadded(pre, word, post);
  }
}

=== FILE: bottom_v1.dfy ===
/**
 The LED board of the v1 firmware (Arduino on ESP-IDF): the UART task reads
 a line up to '\n', trims whitespace, and drives the LED from the two
 command lines.
 */
module BottomV1 {
  import opened Common
  import opened ArduinoSerial

  const ON_COMMAND: seq<char> := "turn_ON_led"
  const OFF_COMMAND: seq<char> := "turn_OFF_led"

  /** The task writes LOW to the LED before its loop starts. */
  const INITIAL_LED: Level := Low

  /** The LED level and the bytes `Serial2` holds but the task has not read yet. */
  datatype Board = Board(led: Level, rx: seq<char>)

  /** The trimmed line compared with the commands, and the console line printed. */
  function Dispatch(led: Level, s: seq<char>): (Level, Option<seq<char>>)
  {
    if s == ON_COMMAND then (High, Some("Command: LED ON"))
    else if s == OFF_COMMAND then (Low, Some("Command: LED OFF"))
    else if |s| > 0 then (led, Some("Unknown Command: " + s))
    else (led, None)
  }

  lemma CommandsTrimmed()
    ensures Trimmed(ON_COMMAND) && Trimmed(OFF_COMMAND)
  {
  }

  /** One pass of `TaskUART`: when bytes are available, one line is read
      (its newline consumed) and compared after trimming. A line that says a
      command, whatever whitespace surrounds it, sets the LED; any other line
      leaves it alone and is printed when it is not blank. */
  function TaskUartStep(b: Board): (r: (Board, Option<seq<char>>))
    ensures b.rx == [] ==> r == (b, None)
    ensures b.rx != [] ==> var (line, rest) := ReadStringUntil(b.rx);
              && r.0.rx == rest
              && (LineSays(line, ON_COMMAND) ==> r == (Board(High, rest), Some("Command: LED ON")))
              && (LineSays(line, OFF_COMMAND) ==> r == (Board(Low, rest), Some("Command: LED OFF")))
              && (!LineSays(line, ON_COMMAND) && !LineSays(line, OFF_COMMAND) ==>
                    r.0.led == b.led && (r.1.Some? <==> !AllSpace(line)))
  {
    if |b.rx| == 0 then (b, None)
    else
      var (line, rest) := ReadStringUntil(b.rx);
      var s := Trim(line);
      CommandsTrimmed();
      TrimmedLineIs(line, ON_COMMAND);
      TrimmedLineIs(line, OFF_COMMAND);
      TrimSays(line);
      assert !AllSpace(line) ==> |s| > 0 by {
        if |s| == 0 { SaysTrims(line, [], |line|, |line|); }
      }
      var (led, console) := Dispatch(b.led, s);
      (Board(led, rest), console)
  }

  /** A command padded with whitespace (but no newline) on either side
      sets the LED, and the rest of the received bytes stays queued. */
  lemma PaddedCommandStep(led: Level, pre: seq<char>, cmd: seq<char>, post: seq<char>, rest: seq<char>)
    requires cmd == ON_COMMAND || cmd == OFF_COMMAND
    requires AllSpace(pre) && AllSpace(post) && '\n' !in pre && '\n' !in post
    ensures TaskUartStep(Board(led, pre + cmd + post + "\n" + rest)).0
         == Board(if cmd == ON_COMMAND then High else Low, rest)
  {
    var line := pre + cmd + post;
    CommandsTrimmed();
    PaddedLineReadBack(pre, cmd, post, rest);
    TrimmedLineIs(line, cmd);
    assert LineSays(line, cmd);
  }

  /** Surrounding blanks and a carriage return are tolerated. */
  lemma ToleratesPadding(led: Level, rest: seq<char>)
    ensures TaskUartStep(Board(led, "  turn_ON_led\r\n" + rest)).0 == Board(High, rest)
  {
    var pre, post := "  ", "\r";
    assert "  turn_ON_led\r\n" + rest == pre + ON_COMMAND + post + "\n" + rest;
    assert AllSpace(pre) && AllSpace(post) && '\n' !in pre && '\n' !in post;
    PaddedCommandStep(led, pre, ON_COMMAND, post, rest);
  }

  /** A command line is a level, not a toggle: the same line twice in a row
      leaves the LED where the first one put it. */
  lemma RepeatedLineIdempotent(led: Level, line: seq<char>, rest: seq<char>)
    requires '\n' !in line
    ensures var once := TaskUartStep(Board(led, line + "\n" + line + "\n" + rest)).0;
            var twice := TaskUartStep(once).0;
            once.rx == line + "\n" + rest && twice.led == once.led
  {
    var rx := line + "\n" + line + "\n" + rest;
    assert Avoids(line, {'\n'});
    TakeUntilFramed(line, '\n', line + "\n" + rest, {'\n'});
    assert rx == line + ['\n'] + (line + "\n" + rest);
    TakeUntilFramed(line, '\n', rest, {'\n'});
    assert line + "\n" + rest == line + ['\n'] + rest;
    CommandsTrimmed();
    TrimmedLineIs(line, ON_COMMAND);
    TrimmedLineIs(line, OFF_COMMAND);
  }

  /** Unlike the v2 board, every line of a burst is handled in turn: ON
      followed by OFF leaves the LED off. */
  lemma BurstHandledLineByLine(led: Level)
    ensures TaskUartStep(TaskUartStep(Board(led, "turn_ON_led\nturn_OFF_led\n")).0).0 == Board(Low, [])
  {
    var second := "turn_OFF_led\n";
    assert "turn_ON_led\nturn_OFF_led\n" == [] + ON_COMMAND + [] + "\n" + second;
    assert second == [] + OFF_COMMAND + [] + "\n" + [];
    PaddedCommandStep(led, [], ON_COMMAND, [], second);
    PaddedCommandStep(High, [], OFF_COMMAND, [], []);
  }

  /** The LED level after the task has handled each line in turn, every
      line arriving with its newline. */
  function ListenLines(led: Level, lines: seq<seq<char>>): Level
    decreases |lines|
  {
    if |lines| == 0 then led else ListenLines(TaskUartStep(Board(led, lines[0] + "\n")).0.led, lines[1..])
  }

  /** A line that does not say the ON command never raises a LOW LED. */
  lemma NonOnLineKeepsLow(line: seq<char>)
    requires '\n' !in line && !LineSays(line, ON_COMMAND)
    ensures TaskUartStep(Board(Low, line + "\n")).0.led == Low
  {
    assert Avoids(line, {'\n'});
    assert line + "\n" == line + ['\n'] + [];
    TakeUntilFramed(line, '\n', [], {'\n'});
    assert ReadStringUntil(line + "\n") == (line, []);
  }

  /** From the task's start, the LED stays LOW through any run of lines none
      of which says the ON command. */
  lemma {:induction false} StaysLowUntilOnLine(lines: seq<seq<char>>)
    requires forall k :: 0 <= k < |lines| ==> '\n' !in lines[k] && !LineSays(lines[k], ON_COMMAND)
    ensures ListenLines(INITIAL_LED, lines) == Low
    decreases |lines|
  {
    if |lines| > 0 {
      NonOnLineKeepsLow(lines[0]);
      StaysLowUntilOnLine(lines[1..]);
    }
  }
}

=== FILE: bottom_v2.dfy ===
/**
 The LED board of the v2 firmware (ESP-IDF): the UART listener reads one
 chunk at a time into a fixed buffer, cuts it at the first line end and
 drives the LED from the two command lines. No whitespace is trimmed.
 */
module BottomV2 {
  import opened Common

  /** Size of the receive buffer; a read asks for at most `BUF_SIZE - 1` bytes. */
  const BUF_SIZE: nat := 1024

  /** The characters the listener cuts a chunk at: the newline and carriage
      return it searches for, and the NUL it writes after the chunk. */
  const LINE_ENDS: set<char> := {'\n', '\r', NUL}

  const ON_COMMAND: seq<char> := "turn_ON_led"
  const OFF_COMMAND: seq<char> := "turn_OFF_led"

  /** `init_led`: the LED starts at level 0. */
  const INITIAL_LED: Level := Low

  // ---------------------------------------------------------------------------
  // Reading and decoding
  // ---------------------------------------------------------------------------

  /** The result of `uart_read_bytes`: -1 on a driver error, otherwise the
      bytes that arrived before the timeout (possibly none). */
  datatype ReadResult = ReadError | Chunk(bytes: seq<char>)

  /** One read from the queue of received bytes, asking for `BUF_SIZE - 1`
      bytes: the chunk taken and the bytes left queued for the next read. */
  function ReadBytes(rx: seq<char>): (r: (ReadResult, seq<char>))
    ensures r.0.Chunk? && r.0.bytes + r.1 == rx
    ensures |r.0.bytes| < BUF_SIZE
    ensures r.1 != [] ==> |r.0.bytes| == BUF_SIZE - 1
  {
    var n := if |rx| < BUF_SIZE - 1 then |rx| else BUF_SIZE - 1;
    assert rx[..n] + rx[n..] == rx;
    (Chunk(rx[..n]), rx[n..])
  }

  /** The line the listener compares: the chunk with a NUL written at
      `data[len]`, then cut at the first '\n', then at the first '\r'.
      It is the longest prefix of the chunk free of line ends. */
  function DecodeChunk(chunk: seq<char>): (line: seq<char>)
    ensures line <= chunk
    ensures Avoids(line, LINE_ENDS)
    ensures |line| == |chunk| || chunk[|line|] in LINE_ENDS
  {
    CStringTerminated(chunk);
    TakeUntilThenTakeUntil(chunk, {NUL}, {'\n'});
    TakeUntilThenTakeUntil(chunk, {NUL} + {'\n'}, {'\r'});
    assert {NUL} + {'\n'} + {'\r'} == LINE_ENDS;
    var text := CString(chunk + [NUL]);
    var beforeNewline := TakeUntil(text, {'\n'});
    TakeUntil(beforeNewline, {'\r'})
  }

  /** Decoding a decoded line changes nothing. */
  lemma DecodeIdempotent(chunk: seq<char>)
    ensures DecodeChunk(DecodeChunk(chunk)) == DecodeChunk(chunk)
  {
    var line := DecodeChunk(chunk);
    TakeUntilUnique(line, LINE_ENDS, line);
    TakeUntilUnique(line, LINE_ENDS, DecodeChunk(line));
  }

  /** The chunk's first line is `cmd`: `cmd` followed by a line end or by
      nothing. */
  predicate FirstLineIs(chunk: seq<char>, cmd: seq<char>)
  {
    cmd <= chunk && (|chunk| == |cmd| || chunk[|cmd|] in LINE_ENDS)
  }

  /** For a text without line ends, decoding yields it exactly when it is
      the chunk's first line. */
  lemma DecodeIsFirstLine(chunk: seq<char>, cmd: seq<char>)
    requires Avoids(cmd, LINE_ENDS)
    ensures DecodeChunk(chunk) == cmd <==> FirstLineIs(chunk, cmd)
  {
    if FirstLineIs(chunk, cmd) {
      TakeUntilUnique(chunk, LINE_ENDS, cmd);
      TakeUntilUnique(chunk, LINE_ENDS, DecodeChunk(chunk));
    }
  }

  lemma CommandsAvoidLineEnds()
    ensures Avoids(ON_COMMAND, LINE_ENDS) && Avoids(OFF_COMMAND, LINE_ENDS)
  {
  }

  // ---------------------------------------------------------------------------
  // Dispatch
  // ---------------------------------------------------------------------------

  datatype LogLine = Info(text: seq<char>) | Warning(text: seq<char>)

  /** What one pass of the listener leaves behind: the LED level and the log line it wrote, if any. */
  datatype RxOutcome = RxOutcome(led: Level, log: Option<LogLine>)

  /** The comparison of a decoded line with the two commands. */
  function Dispatch(led: Level, line: seq<char>): RxOutcome
  {
    if line == ON_COMMAND then RxOutcome(High, Some(Info("Command Received: LED ON")))
    else if line == OFF_COMMAND then RxOutcome(Low, Some(Info("Command Received: LED OFF")))
    else if |line| > 0 then RxOutcome(led, Some(Warning("Unknown Command: " + line)))
    else RxOutcome(led, None)
  }

  /** One pass of `uart_rx_task`: a failed or empty read does nothing; a
      chunk whose first line is a command sets the LED, any other chunk
      leaves it alone and is reported when its first line is not empty. */
  function RxStep(led: Level, read: ReadResult): (r: RxOutcome)
    ensures read.ReadError? || read.bytes == [] ==> r == RxOutcome(led, None)
    ensures read.Chunk? && FirstLineIs(read.bytes, ON_COMMAND) ==> r.led == High
    ensures read.Chunk? && FirstLineIs(read.bytes, OFF_COMMAND) ==> r.led == Low
    ensures read.Chunk? && !FirstLineIs(read.bytes, ON_COMMAND) && !FirstLineIs(read.bytes, OFF_COMMAND)
            ==> r.led == led
    ensures (r.log.Some? && r.log.value.Warning?) <==>
              read.Chunk? && |read.bytes| > 0 && read.bytes[0] !in LINE_ENDS
              && !FirstLineIs(read.bytes, ON_COMMAND) && !FirstLineIs(read.bytes, OFF_COMMAND)
  {
    match read
    case ReadError => RxOutcome(led, None)
    case Chunk(bytes) =>
      if |bytes| > 0 then
        CommandsAvoidLineEnds();
        DecodeIsFirstLine(bytes, ON_COMMAND);
        DecodeIsFirstLine(bytes, OFF_COMMAND);
        Dispatch(led, DecodeChunk(bytes))
      else
        RxOutcome(led, None)
  }

  /** Commands are levels, not toggles: a second identical chunk changes nothing. */
  lemma RxStepIdempotent(led: Level, read: ReadResult)
    ensures RxStep(RxStep(led, read).led, read).led == RxStep(led, read).led
  {
    if read.Chunk? && FirstLineIs(read.bytes, ON_COMMAND) {
      assert !FirstLineIs(read.bytes, OFF_COMMAND) by {
        assert read.bytes[6] == ON_COMMAND[6];
      }
    }
  }

  /** Only the first line of a chunk takes effect. */
  lemma OnlyFirstLineCounts(led: Level)
    ensures RxStep(led, Chunk("turn_ON_led\nturn_OFF_led\n")).led == High
  {
    assert FirstLineIs("turn_ON_led\nturn_OFF_led\n", ON_COMMAND);
  }

  /** Whitespace is not trimmed: a command with a blank before or after it is unknown. */
  lemma BlanksAreNotTrimmed(led: Level)
    ensures RxStep(led, Chunk(" turn_ON_led")).led == led
    ensures RxStep(led, Chunk("turn_ON_led ")).led == led
    ensures RxStep(led, Chunk(" turn_OFF_led")).led == led
  {
    assert !FirstLineIs(" turn_ON_led", ON_COMMAND) by { assert " turn_ON_led"[0] != ON_COMMAND[0]; }
    assert !FirstLineIs(" turn_ON_led", OFF_COMMAND) by { assert " turn_ON_led"[0] != OFF_COMMAND[0]; }
    assert !FirstLineIs("turn_ON_led ", OFF_COMMAND) by { assert "turn_ON_led "[6] != OFF_COMMAND[6]; }
    assert !FirstLineIs(" turn_OFF_led", ON_COMMAND) by { assert " turn_OFF_led"[0] != ON_COMMAND[0]; }
    assert !FirstLineIs(" turn_OFF_led", OFF_COMMAND) by { assert " turn_OFF_led"[0] != OFF_COMMAND[0]; }
  }

  // ---------------------------------------------------------------------------
  // The listener over time
  // ---------------------------------------------------------------------------

  /** The LED level after the listener has handled a run of results. */
  function Listen(led: Level, results: seq<ReadResult>): Level
    decreases |results|
  {
    if |results| == 0 then led else Listen(RxStep(led, results[0]).led, results[1..])
  }

  /** The level the latest command among the results asks for, if any. */
  function LatestCommand(results: seq<ReadResult>): Option<Level>
    decreases |results|
  {
    if |results| == 0 then None
    else
      var last := results[|results| - 1];
      if last.Chunk? && FirstLineIs(last.bytes, ON_COMMAND) then Some(High)
      else if last.Chunk? && FirstLineIs(last.bytes, OFF_COMMAND) then Some(Low)
      else LatestCommand(results[..|results| - 1])
  }

  lemma {:induction false} ListenSnoc(led: Level, results: seq<ReadResult>, r: ReadResult)
    ensures Listen(led, results + [r]) == RxStep(Listen(led, results), r).led
    decreases |results|
  {
    if |results| == 0 {
      assert results + [r] == [r];
    } else {
      assert (results + [r])[1..] == results[1..] + [r];
      ListenSnoc(RxStep(led, results[0]).led, results[1..], r);
    }
  }

  /** The LED shows the latest command received, or its earlier level when
      no command arrived. */
  lemma {:induction false} ListenShowsLatestCommand(led: Level, results: seq<ReadResult>)
    ensures Listen(led, results) == (match LatestCommand(results) case Some(l) => l case None => led)
    decreases |results|
  {
    if |results| > 0 {
      var init := results[..|results| - 1];
      var last := results[|results| - 1];
      assert init + [last] == results;
      ListenSnoc(led, init, last);
      ListenShowsLatestCommand(led, init);
      if last.Chunk? && FirstLineIs(last.bytes, ON_COMMAND) {
        assert !FirstLineIs(last.bytes, OFF_COMMAND) by {
          assert last.bytes[6] == ON_COMMAND[6];
        }
      }
    }
  }

  /** From power-up, the LED stays off until some chunk's first line is the
      ON command. */
  lemma StaysOffUntilOnCommand(results: seq<ReadResult>)
    requires forall i :: 0 <= i < |results| ==> !(results[i].Chunk? && FirstLineIs(results[i].bytes, ON_COMMAND))
    ensures Listen(INITIAL_LED, results) == Low
  {
    ListenShowsLatestCommand(INITIAL_LED, results);
    NoOnCommandNoHigh(results);
  }

  lemma {:induction false} NoOnCommandNoHigh(results: seq<ReadResult>)
    requires forall i :: 0 <= i < |results| ==> !(results[i].Chunk? && FirstLineIs(results[i].bytes, ON_COMMAND))
    ensures LatestCommand(results) != Some(High)
    decreases |results|
  {
    if |results| > 0 {
      NoOnCommandNoHigh(results[..|results| - 1]);
    }
  }
}

=== FILE: common.dfy ===
/**
 Shared vocabulary of the LED-control boards: optional values, digital pin
 levels, C strings and the two text-cutting operations every board uses
 (cutting a buffer at the first of a set of terminator characters, and
 Arduino's whitespace trim).
 */
module Common {

  datatype Option<T> = None | Some(value: T)

  /** Level of a digital output pin: 0 / LOW or 1 / HIGH. */
  datatype Level = Low | High

  /** `!digitalRead(pin)`: the opposite level. */
  function Negate(l: Level): (r: Level)
    ensures r != l
  {
    if l == Low then High else Low
  }

  const NUL: char := '\0'

  /** True when no character of `s` belongs to `stop`. */
  predicate Avoids(s: seq<char>, stop: set<char>)
  {
    forall i :: 0 <= i < |s| ==> s[i] !in stop
  }

  /** The longest prefix of `s` that holds no character of `stop`: what a
      C routine sees after writing NUL over the first terminator it finds. */
  function TakeUntil(s: seq<char>, stop: set<char>): (r: seq<char>)
    ensures r <= s
    ensures Avoids(r, stop)
    ensures |r| == |s| || s[|r|] in stop
    decreases |s|
  {
    if |s| == 0 || s[0] in stop then [] else [s[0]] + TakeUntil(s[1..], stop)
  }

  /** A NUL-terminated buffer read as a C string: the bytes before the first NUL. */
  function CString(buf: seq<char>): (r: seq<char>)
    ensures r <= buf && NUL !in r
    ensures |r| == |buf| || buf[|r|] == NUL
    ensures NUL !in buf ==> r == buf
  {
    TakeUntil(buf, {NUL})
  }

  /** A buffer with a NUL written after its bytes holds the same C string
      as the bytes themselves. */
  lemma CStringTerminated(p: seq<char>)
    ensures CString(p + [NUL]) == CString(p)
  {
    var q := CString(p);
    assert q <= p + [NUL];
    assert |q| == |p| ==> (p + [NUL])[|q|] == NUL;
    assert |q| < |p| ==> (p + [NUL])[|q|] == p[|q|];
    TakeUntilUnique(p + [NUL], {NUL}, q);
  }

  /** The three conditions of the TakeUntil contract pin its result down. */
  lemma TakeUntilUnique(s: seq<char>, stop: set<char>, p: seq<char>)
    requires p <= s && Avoids(p, stop)
    requires |p| == |s| || s[|p|] in stop
    ensures TakeUntil(s, stop) == p
  {
    var r := TakeUntil(s, stop);
    assert |r| == |p|;
  }

  /** Cutting at the terminators of `a` and then at those of `b` is the same
      as cutting once at the first terminator of either kind. */
  lemma TakeUntilThenTakeUntil(s: seq<char>, a: set<char>, b: set<char>)
    ensures TakeUntil(TakeUntil(s, a), b) == TakeUntil(s, a + b)
  {
    var t := TakeUntil(s, a);
    var p := TakeUntil(t, b);
    assert forall i :: 0 <= i < |p| ==> p[i] == t[i] == s[i];
    if |p| < |t| {
      assert s[|p|] == t[|p|];
    }
    TakeUntilUnique(s, a + b, p);
  }

  /** A text followed by one of the terminators is recovered exactly: the
      framing round trip. */
  lemma TakeUntilFramed(c: seq<char>, t: char, rest: seq<char>, stop: set<char>)
    requires Avoids(c, stop) && t in stop
    ensures TakeUntil(c + [t] + rest, stop) == c
  {
    var s := c + [t] + rest;
    assert c <= s;
    assert s[|c|] == t;
    TakeUntilUnique(s, stop, c);
  }

  /** Arduino's `isspace`: blank, tab, newline, vertical tab, form feed, carriage return. */
  predicate IsSpace(c: char)
  {
    c == ' ' || c == '\t' || c == '\n' || c == '\U{0B}' || c == '\U{0C}' || c == '\r'
  }

  predicate AllSpace(s: seq<char>)
  {
    forall i :: 0 <= i < |s| ==> IsSpace(s[i])
  }

  /** A text with no whitespace at either end. */
  predicate Trimmed(s: seq<char>)
  {
    |s| == 0 || (!IsSpace(s[0]) && !IsSpace(s[|s| - 1]))
  }

  /** The text after its leading whitespace. */
  function TrimStart(s: seq<char>): (r: seq<char>)
    ensures |r| <= |s| && r == s[|s| - |r|..]
    ensures AllSpace(s[..|s| - |r|])
    ensures |r| == 0 || !IsSpace(r[0])
    decreases |s|
  {
    if |s| > 0 && IsSpace(s[0]) then TrimStart(s[1..]) else s
  }

  /** The text before its trailing whitespace. */
  function TrimEnd(s: seq<char>): (r: seq<char>)
    ensures r <= s
    ensures AllSpace(s[|r|..])
    ensures |r| == 0 || !IsSpace(r[|r| - 1])
    decreases |s|
  {
    if |s| > 0 && IsSpace(s[|s| - 1]) then TrimEnd(s[..|s| - 1]) else s
  }

  /** Arduino `String::trim()`: leading and trailing whitespace removed. */
  function Trim(s: seq<char>): (r: seq<char>)
    ensures Trimmed(r)
    ensures |r| <= |s|
    ensures AllSpace(s) ==> r == []
  {
    TrimEnd(TrimStart(s))
  }

  lemma {:induction false} TrimStartPadded(pre: seq<char>, x: seq<char>)
    requires AllSpace(pre)
    requires |x| == 0 || !IsSpace(x[0])
    ensures TrimStart(pre + x) == x
    decreases |pre|
  {
    if |pre| > 0 {
      assert (pre + x)[1..] == pre[1..] + x;
      TrimStartPadded(pre[1..], x);
    } else {
      assert pre + x == x;
    }
  }

  lemma {:induction false} TrimEndPadded(x: seq<char>, post: seq<char>)
    requires AllSpace(post)
    requires |x| == 0 || !IsSpace(x[|x| - 1])
    ensures TrimEnd(x + post) == x
    decreases |post|
  {
    if |post| > 0 {
      assert (x + post)[..|x + post| - 1] == x + post[..|post| - 1];
      TrimEndPadded(x, post[..|post| - 1]);
    } else {
      assert x + post == x;
    }
  }

  /** Trim undoes whitespace padding: a trimmed text padded with whitespace on
      either side is recovered exactly. */
  lemma TrimPadded(pre: seq<char>, x: seq<char>, post: seq<char>)
    requires AllSpace(pre) && AllSpace(post) && Trimmed(x)
    ensures Trim(pre + x + post) == x
  {
    assert pre + x + post == pre + (x + post);
    if |x| == 0 {
      assert pre + x + post == pre + post;
      assert AllSpace(pre + post);
    } else {
      TrimStartPadded(pre, x + post);
      TrimEndPadded(x, post);
    }
  }

  /** Every text is its trim padded with whitespace on either side. */
  lemma TrimSplits(s: seq<char>)
    ensures exists i, j :: 0 <= i <= j <= |s| && s[i..j] == Trim(s)
                          && AllSpace(s[..i]) && AllSpace(s[j..])
  {
    var t := TrimStart(s);
    var i := |s| - |t|;
    if |t| == 0 {
      assert s[i..i] == Trim(s);
      assert s[i..] == [];
    } else {
      var r := TrimEnd(t);
      var j := i + |r|;
      assert s[i..j] == r;
      assert s[j..] == t[|r|..];
    }
  }

  /** Trimming twice is trimming once. */
  lemma TrimIdempotent(s: seq<char>)
    ensures Trim(Trim(s)) == Trim(s)
  {
    TrimPadded([], Trim(s), []);
    assert [] + Trim(s) + [] == Trim(s);
  }
}

=== FILE: end_to_end.dfy ===
/**
 The three parts put together: the top board's UART framing against each
 LED board's line reader, and one full exchange from the app's toggle
 through the bridge to the LED and back to the app's view.
 */
module EndToEnd {
  import opened Common
  import opened ArduinoSerial
  import TopController
  import BottomV2
  import BottomV1
  import Responder
  import MobileApp

  /** The bridge and both LED boards spell the two commands the same way. */
  lemma CommandsAgree()
    ensures TopController.CMD_LED_ON == BottomV2.ON_COMMAND == BottomV1.ON_COMMAND
    ensures TopController.CMD_LED_OFF == BottomV2.OFF_COMMAND == BottomV1.OFF_COMMAND
  {
  }

  /** Framing round trip with the v2 board: a command line without line
      ends that fits in one read is decoded back exactly, and nothing stays
      queued. */
  lemma FramingRoundTripV2(cmd: seq<char>)
    requires Avoids(cmd, BottomV2.LINE_ENDS)
    requires |cmd| + 1 <= BottomV2.BUF_SIZE - 1
    ensures var (read, rest) := BottomV2.ReadBytes(TopController.SendUartCommand(cmd));
            read == BottomV2.Chunk(cmd + "\n") && rest == []
            && BottomV2.DecodeChunk(read.bytes) == cmd
  {
    assert NUL !in cmd;
    var frame := TopController.SendUartCommand(cmd);
    assert frame == cmd + ['\n'] + [];
    TakeUntilFramed(cmd, '\n', [], BottomV2.LINE_ENDS);
    BottomV2.DecodeIsFirstLine(frame, cmd);
  }

  /** However long the command, the first read of its frame decodes to a
      prefix of the command: a long command is cut, never altered. */
  lemma LongCommandIsCut(cmd: seq<char>)
    requires Avoids(cmd, BottomV2.LINE_ENDS)
    ensures BottomV2.DecodeChunk(BottomV2.ReadBytes(TopController.SendUartCommand(cmd)).0.bytes) <= cmd
  {
    assert NUL !in cmd;
    var frame := TopController.SendUartCommand(cmd);
    var chunk := BottomV2.ReadBytes(frame).0.bytes;
    assert chunk <= frame;
  }

  /** Framing round trip with the v1 board: a command line without a newline
      or NUL and without whitespace at its ends is read back and trimmed to
      itself, leaving the following bytes queued. */
  lemma FramingRoundTripV1(cmd: seq<char>, rest: seq<char>)
    requires '\n' !in cmd && NUL !in cmd && Trimmed(cmd)
    ensures ReadStringUntil(TopController.SendUartCommand(cmd) + rest).1 == rest
    ensures Trim(ReadStringUntil(TopController.SendUartCommand(cmd) + rest).0) == cmd
  {
    assert TopController.SendUartCommand(cmd) + rest == [] + cmd + [] + "\n" + rest;
    PaddedLineReadBack([], cmd, [], rest);
  }

  /** The responder's PONG line, `println` with CR LF, reads back as "PONG"
      through the same Arduino line discipline. */
  lemma PongReadsBack(rest: seq<char>)
    ensures Trim(ReadStringUntil(Println(Responder.PONG) + rest).0) == Responder.PONG
    ensures ReadStringUntil(Println(Responder.PONG) + rest).1 == rest
  {
    var pre, post := [], "\r";
    assert Println(Responder.PONG) + rest == pre + Responder.PONG + post + "\n" + rest;
    assert AllSpace(post) && '\n' !in post && Trimmed(Responder.PONG) && '\n' !in Responder.PONG;
    PaddedLineReadBack(pre, Responder.PONG, post, rest);
  }

  /** The bridge's action on a delivered "ON" or "OFF". */
  lemma BridgeForwards(word: seq<char>)
    requires word == "ON" || word == "OFF"
    ensures var out := TopController.WsHandler(TopController.DataFrame(TopController.ESP_OK, word, TopController.ESP_OK));
            && out.uart == Some(if word == "ON" then TopController.CMD_LED_ON + "\n" else TopController.CMD_LED_OFF + "\n")
            && out.reply == Some(TopController.TextFrame(if word == "ON" then "STATUS:ON" else "STATUS:OFF"))
  {
    var req := TopController.DataFrame(TopController.ESP_OK, word, TopController.ESP_OK);
    assert NUL !in word;
    assert TopController.Delivered(req) && TopController.Word(req) == word;
    var cmd := if word == "ON" then TopController.CMD_LED_ON else TopController.CMD_LED_OFF;
    assert NUL !in cmd;
    assert TopController.ForwardedLine(word) == Some(TopController.SendUartCommand(cmd));
  }

  /** The v2 board's response to the two lines the bridge forwards. */
  lemma V2Obeys(led: Level)
    ensures BottomV2.RxStep(led, BottomV2.ReadBytes(TopController.SendUartCommand(TopController.CMD_LED_ON)).0).led == High
    ensures BottomV2.RxStep(led, BottomV2.ReadBytes(TopController.SendUartCommand(TopController.CMD_LED_OFF)).0).led == Low
  {
    CommandsAgree();
    BottomV2.CommandsAvoidLineEnds();
    FramingRoundTripV2(BottomV2.ON_COMMAND);
    FramingRoundTripV2(BottomV2.OFF_COMMAND);
    var on := BottomV2.ON_COMMAND + "\n";
    var off := BottomV2.OFF_COMMAND + "\n";
    BottomV2.DecodeIsFirstLine(on, BottomV2.ON_COMMAND);
    BottomV2.DecodeIsFirstLine(off, BottomV2.OFF_COMMAND);
  }

  /** Sequence identity: a framed line followed by more bytes, regrouped as
      the same line with empty padding on both sides. It keeps the solver
      from unfolding literal commands when the padded-line lemma is applied. */
  lemma FrameAsEmptyPadding(c: seq<char>, rest: seq<char>)
    ensures (c + "\n") + rest == [] + c + [] + "\n" + rest
  {
  }

  /** A forwarded command line makes the v1 board set the level it names. */
  lemma V1ObeysLine(led: Level, cmd: seq<char>, rest: seq<char>)
    requires cmd == BottomV1.ON_COMMAND || cmd == BottomV1.OFF_COMMAND
    ensures BottomV1.TaskUartStep(BottomV1.Board(led, TopController.SendUartCommand(cmd) + rest)).0
         == BottomV1.Board(if cmd == BottomV1.ON_COMMAND then High else Low, rest)
  {
    assert NUL !in cmd;
    var frame := TopController.SendUartCommand(cmd);
    assert frame == cmd + "\n";
    var rx := frame + rest;
    FrameAsEmptyPadding(cmd, rest);
    BottomV1.PaddedCommandStep(led, [], cmd, [], rest);
    assert BottomV1.TaskUartStep(BottomV1.Board(led, rx)).0 == BottomV1.Board(if cmd == BottomV1.ON_COMMAND then High else Low, rest);
  }

  /** The v1 board's response to the two lines the bridge forwards. */
  lemma V1Obeys(led: Level, rest: seq<char>)
    ensures BottomV1.TaskUartStep(BottomV1.Board(led, TopController.SendUartCommand(TopController.CMD_LED_ON) + rest)).0 == BottomV1.Board(High, rest)
    ensures BottomV1.TaskUartStep(BottomV1.Board(led, TopController.SendUartCommand(TopController.CMD_LED_OFF) + rest)).0 == BottomV1.Board(Low, rest)
  {
    CommandsAgree();
    V1ObeysLine(led, BottomV1.ON_COMMAND, rest);
    V1ObeysLine(led, BottomV1.OFF_COMMAND, rest);
  }

  /** One exchange with the v2 LED board: a toggle in the connected app
      goes through the bridge, sets the LED, and the status reply flips the
      app's view so that view and LED agree, whatever the LED was before. */
  lemma ToggleAgreesV2(app: MobileApp.App, led: Level, now: int)
    requires app.isConnected
    ensures var word := MobileApp.Toggle(app).value;
            var out := TopController.WsHandler(TopController.DataFrame(TopController.ESP_OK, word, TopController.ESP_OK));
            var led' := BottomV2.RxStep(led, BottomV2.ReadBytes(out.uart.value).0).led;
            var app' := MobileApp.OnMessage(app, out.reply.value.payload, now);
            && app'.isLedOn == !app.isLedOn
            && (led' == High <==> app'.isLedOn)
  {
    var word := MobileApp.Toggle(app).value;
    BridgeForwards(word);
    V2Obeys(led);
  }

  /** The same exchange with the v1 LED board. */
  lemma ToggleAgreesV1(app: MobileApp.App, led: Level, rest: seq<char>, now: int)
    requires app.isConnected
    ensures var word := MobileApp.Toggle(app).value;
            var out := TopController.WsHandler(TopController.DataFrame(TopController.ESP_OK, word, TopController.ESP_OK));
            var board := BottomV1.TaskUartStep(BottomV1.Board(led, out.uart.value + rest)).0;
            var app' := MobileApp.OnMessage(app, out.reply.value.payload, now);
            && board.rx == rest
            && app'.isLedOn == !app.isLedOn
            && (board.led == High <==> app'.isLedOn)
  {
    var word := MobileApp.Toggle(app).value;
    BridgeForwards(word);
    V1Obeys(led, rest);
  }

  /** The watchdog's PING gets a PONG from the bridge and nothing on the
      UART; the PONG refreshes the app's heartbeat and leaves its LED view. */
  lemma PingKeepsViewAndLed(app: MobileApp.App, now: int)
    ensures var out := TopController.WsHandler(TopController.DataFrame(TopController.ESP_OK, "PING", TopController.ESP_OK));
            && out.uart == None
            && out.reply == Some(TopController.TextFrame("PONG"))
            && MobileApp.OnMessage(app, "PONG", now).isLedOn == app.isLedOn
            && MobileApp.OnMessage(app, "PONG", now).lastPongTime == now
  {
    assert TopController.Word(TopController.DataFrame(TopController.ESP_OK, "PING", TopController.ESP_OK)) == "PING";
  }
}

=== FILE: mobile_app.dfy ===
/**
 The v1 mobile app's connection logic: the WebSocket it keeps to the top
 board, the LED view it updates from status messages, the toggle that
 sends commands, and the watchdog that closes a silent connection. Timers
 become events and `Date.now()` becomes a `now` argument in milliseconds.
 */
module MobileApp {
  import opened Common

  /** A connection is dead when nothing arrived for strictly more than this many milliseconds. */
  const WATCHDOG_TIMEOUT_MS: int := 4000

  /** `WebSocket.readyState`. */
  datatype ReadyState = Connecting | Open | Closing | Closed

  /** The status line: "Connecting...", "Online", "Disconnected. Retrying...". */
  datatype StatusText = ConnectingText | Online | Retrying

  /** The app's state: the socket held in `ws.current` (none before the first
      connect), the React state, the time of the last message, and whether
      the watchdog interval and the reconnect timeout are armed. */
  datatype App = App(
    socket: Option<ReadyState>,
    isConnected: bool,
    isLedOn: bool,
    lastPongTime: int,
    status: StatusText,
    watchdogRunning: bool,
    reconnectPending: bool)

  // ---------------------------------------------------------------------------
  // Handlers
  // ---------------------------------------------------------------------------

  /** `connect`: does nothing while the socket is open or still connecting;
      otherwise opens a new socket and shows "Connecting...". */
  function Connect(a: App): (r: App)
    ensures a.socket == Some(Open) || a.socket == Some(Connecting) ==> r == a
    ensures !(a.socket == Some(Open) || a.socket == Some(Connecting)) ==>
              r.socket == Some(Connecting) && r.status == ConnectingText
    ensures r.socket.Some? && (r.socket.value == Open || r.socket.value == Connecting)
    ensures r.isConnected == a.isConnected && r.isLedOn == a.isLedOn && r.lastPongTime == a.lastPongTime
    ensures r.watchdogRunning == a.watchdogRunning && r.reconnectPending == a.reconnectPending
  {
    if a.socket == Some(Open) || a.socket == Some(Connecting) then a
    else a.(socket := Some(Connecting), status := ConnectingText)
  }

  /** Mounting the app: the initial React state (LED off, not connected,
      `lastPongTime` set to the mount time), then `connect`. */
  function Mount(now: int): (r: App)
    ensures r.socket == Some(Connecting) && r.status == ConnectingText && !r.isConnected && !r.isLedOn
    ensures !r.watchdogRunning && !r.reconnectPending && r.lastPongTime == now
  {
    Connect(App(None, false, false, now, ConnectingText, false, false))
  }

  /** `onopen`: connected, "Online", the pending reconnect cancelled, and the
      watchdog started with `lastPongTime` reset to now. */
  function OnOpen(a: App, now: int): (r: App)
    ensures r.isConnected && r.status == Online && r.socket == Some(Open)
    ensures r.watchdogRunning && !r.reconnectPending && r.lastPongTime == now
    ensures r.isLedOn == a.isLedOn
  {
    a.(socket := Some(Open), isConnected := true, status := Online,
       reconnectPending := false, watchdogRunning := true, lastPongTime := now)
  }

  /** `onclose`: disconnected, the watchdog stopped, a reconnect scheduled. */
  function OnClose(a: App): (r: App)
    ensures !r.isConnected && !r.watchdogRunning && r.reconnectPending
    ensures r.status == Retrying && r.socket == Some(Closed)
    ensures r.isLedOn == a.isLedOn && r.lastPongTime == a.lastPongTime
  {
    a.(socket := Some(Closed), isConnected := false, status := Retrying,
       watchdogRunning := false, reconnectPending := true)
  }

  /** `onmessage`: any message refreshes `lastPongTime`; "STATUS:ON" and
      "STATUS:OFF" set the LED view, every other message leaves it. */
  function OnMessage(a: App, data: seq<char>, now: int): (r: App)
    ensures r.lastPongTime == now
    ensures r.isLedOn <==> data == "STATUS:ON" || (a.isLedOn && data != "STATUS:OFF")
    ensures r.(lastPongTime := a.lastPongTime, isLedOn := a.isLedOn) == a
  {
    var a1 := a.(lastPongTime := now);
    var a2 := if data == "STATUS:ON" then a1.(isLedOn := true) else a1;
    if data == "STATUS:OFF" then a2.(isLedOn := false) else a2
  }

  /** `toggleSwitch`: nothing while disconnected; otherwise asks for the
      opposite of the LED state on display. The view itself waits for the
      board's status reply. */
  function Toggle(a: App): (sent: Option<seq<char>>)
    ensures sent == Some("ON") <==> a.isConnected && !a.isLedOn
    ensures sent == Some("OFF") <==> a.isConnected && a.isLedOn
    ensures sent == None <==> !a.isConnected
  {
    if !a.isConnected then None
    else Some(if !a.isLedOn then "ON" else "OFF")
  }

  /** The watchdog's test: strictly more than the timeout since the last message. */
  predicate Dead(now: int, lastPongTime: int)
  {
    now - lastPongTime > WATCHDOG_TIMEOUT_MS
  }

  /** One firing of the watchdog interval: while the socket is open it sends
      "PING", and closes the socket when the connection is dead. */
  function WatchdogTick(a: App, now: int): (r: (App, Option<seq<char>>))
    ensures r.1 == Some("PING") <==> a.watchdogRunning && a.socket == Some(Open)
    ensures r.1 == None ==> r.0 == a
    ensures r.0.socket == Some(Closing) <==>
              a.socket == Some(Closing) || (a.watchdogRunning && a.socket == Some(Open) && Dead(now, a.lastPongTime))
    ensures r.0.(socket := a.socket) == a
    ensures !(a.watchdogRunning && a.socket == Some(Open) && Dead(now, a.lastPongTime)) ==> r.0 == a
  {
    if a.watchdogRunning && a.socket == Some(Open) then
      if Dead(now, a.lastPongTime) then (a.(socket := Some(Closing)), Some("PING"))
      else (a, Some("PING"))
    else (a, None)
  }

  /** The reconnect timeout firing: `connect` again. */
  function ReconnectFires(a: App): (r: App)
    ensures !a.reconnectPending ==> r == a
    ensures a.reconnectPending && a.socket == Some(Closed) ==> r.socket == Some(Connecting) && r.status == ConnectingText
    ensures !r.reconnectPending
    ensures r.isConnected == a.isConnected && r.isLedOn == a.isLedOn && r.lastPongTime == a.lastPongTime
    ensures r.watchdogRunning == a.watchdogRunning
  {
    if a.reconnectPending then Connect(a.(reconnectPending := false)) else a
  }

  // ---------------------------------------------------------------------------
  // Runs of events
  // ---------------------------------------------------------------------------

  datatype Event =
    | Opened(now: int)
    | ClosedEvent
    | Message(data: seq<char>, now: int)
    | TogglePressed
    | Tick(now: int)
    | ReconnectTimer

  /** One event and the message it sends, if any. */
  function Step(a: App, e: Event): (App, Option<seq<char>>)
  {
    match e
    case Opened(now) => (OnOpen(a, now), None)
    case ClosedEvent => (OnClose(a), None)
    case Message(data, now) => (OnMessage(a, data, now), None)
    case TogglePressed => (a, Toggle(a))
    case Tick(now) => WatchdogTick(a, now)
    case ReconnectTimer => (ReconnectFires(a), None)
  }

  function Run(a: App, events: seq<Event>): App
    decreases |events|
  {
    if |events| == 0 then a else Run(Step(a, events[0]).0, events[1..])
  }

  /** The connection flag, the watchdog and the status line agree, and a
      reconnect is only pending while disconnected. */
  predicate Coherent(a: App)
  {
    && a.isConnected == a.watchdogRunning
    && (a.isConnected <==> a.status == Online)
    && (a.reconnectPending ==> !a.isConnected)
  }

  lemma StepKeepsCoherent(a: App, e: Event)
    requires Coherent(a)
    ensures Coherent(Step(a, e).0)
  {
  }

  /** Every run of events from mounting keeps the app coherent. */
  lemma {:induction false} RunKeepsCoherent(a: App, events: seq<Event>)
    requires Coherent(a)
    ensures Coherent(Run(a, events))
    decreases |events|
  {
    if |events| > 0 {
      StepKeepsCoherent(a, events[0]);
      RunKeepsCoherent(Step(a, events[0]).0, events[1..]);
    }
  }

  lemma MountedAppCoherent(now: int, events: seq<Event>)
    ensures Coherent(Run(Mount(now), events))
  {
    RunKeepsCoherent(Mount(now), events);
  }

  /** The LED state the latest status message among the events reports, if any. */
  function LatestStatus(events: seq<Event>): Option<bool>
    decreases |events|
  {
    if |events| == 0 then None
    else
      var last := events[|events| - 1];
      if last.Message? && last.data == "STATUS:ON" then Some(true)
      else if last.Message? && last.data == "STATUS:OFF" then Some(false)
      else LatestStatus(events[..|events| - 1])
  }

  lemma {:induction false} RunSnoc(a: App, events: seq<Event>, e: Event)
    ensures Run(a, events + [e]) == Step(Run(a, events), e).0
    decreases |events|
  {
    if |events| == 0 {
      assert events + [e] == [e];
    } else {
      assert (events + [e])[1..] == events[1..] + [e];
      RunSnoc(Step(a, events[0]).0, events[1..], e);
    }
  }

  /** The LED view shows the latest status the board reported, and only
      status messages move it. */
  lemma {:induction false} LedViewShowsLatestStatus(a: App, events: seq<Event>)
    ensures Run(a, events).isLedOn == (match LatestStatus(events) case Some(b) => b case None => a.isLedOn)
    decreases |events|
  {
    if |events| > 0 {
      var init := events[..|events| - 1];
      var last := events[|events| - 1];
      assert init + [last] == events;
      RunSnoc(a, init, last);
      LedViewShowsLatestStatus(a, init);
    }
  }

  /** The watchdog's boundary: exactly the timeout is still alive, one
      millisecond more is dead. */
  lemma WatchdogBoundary(t: int)
    ensures !Dead(t + 4000, t)
    ensures Dead(t + 4001, t)
  {
  }

  /** A message keeps the connection alive: no tick within the timeout of
      it closes the socket. */
  lemma MessageKeepsAlive(a: App, data: seq<char>, t: int, now: int)
    requires a.socket == Some(Open) && now <= t + WATCHDOG_TIMEOUT_MS
    ensures WatchdogTick(OnMessage(a, data, t), now).0.socket == Some(Open)
  {
  }
}

=== FILE: responder.dfy ===
/**
 The current LED board firmware (Arduino on ESP-IDF): one task answers a
 "PING" line with a "PONG" line, a second task blinks the LED. The two
 tasks share nothing but the board.
 */
module Responder {
  import opened Common
  import opened ArduinoSerial

  const PING: seq<char> := "PING"
  const PONG: seq<char> := "PONG"

  /** The LED level, the bytes `Serial2` has received but the listener has
      not read, and the bytes the listener has written back. */
  datatype Board = Board(led: Level, rx: seq<char>, tx: seq<char>)

  /** One pass of the listener task: when bytes are available it reads one
      line; if the line says PING (whitespace around it allowed) it writes
      one PONG line back. It never touches the LED. */
  function ListenerStep(b: Board): (r: Board)
    ensures r.led == b.led
    ensures b.rx == [] ==> r == b
    ensures b.rx != [] ==> var (line, rest) := ReadStringUntil(b.rx);
              && r.rx == rest
              && (LineSays(line, PING) ==> r.tx == b.tx + "PONG\r\n")
              && (!LineSays(line, PING) ==> r.tx == b.tx)
  {
    if |b.rx| == 0 then b
    else
      var (line, rest) := ReadStringUntil(b.rx);
      assert Trimmed(PING);
      assert Println(PONG) == "PONG\r\n";
      TrimmedLineIs(line, PING);
      if Trim(line) == PING then Board(b.led, rest, b.tx + Println(PONG))
      else Board(b.led, rest, b.tx)
  }

  /** One pass of the blink task: the LED takes the opposite of the level it reads back. */
  function BlinkStep(b: Board): (r: Board)
    ensures r.led != b.led
    ensures r.rx == b.rx && r.tx == b.tx
  {
    b.(led := Negate(b.led))
  }

  /** Two blink steps restore the LED level. */
  lemma BlinkTwiceRestores(b: Board)
    ensures BlinkStep(BlinkStep(b)) == b
  {
  }

  /** A PING line, even padded with blanks or a carriage return, is answered
      with exactly one PONG line and consumed. */
  lemma PaddedPingAnswered(led: Level, pre: seq<char>, post: seq<char>, rest: seq<char>, tx: seq<char>)
    requires AllSpace(pre) && AllSpace(post) && '\n' !in pre && '\n' !in post
    ensures ListenerStep(Board(led, pre + PING + post + "\n" + rest, tx)) == Board(led, rest, tx + "PONG\r\n")
  {
    assert Trimmed(PING) && '\n' !in PING;
    PaddedLineReadBack(pre, PING, post, rest);
    TrimmedLineIs(pre + PING + post, PING);
  }

  /** Any other line is consumed without a reply. */
  lemma OtherLinesUnanswered(led: Level, line: seq<char>, rest: seq<char>, tx: seq<char>)
    requires '\n' !in line && Trim(line) != PING
    ensures ListenerStep(Board(led, line + "\n" + rest, tx)) == Board(led, rest, tx)
  {
    var b := Board(led, line + "\n" + rest, tx);
    assert Avoids(line, {'\n'});
    assert line + "\n" + rest == line + ['\n'] + rest;
    TakeUntilFramed(line, '\n', rest, {'\n'});
    assert ReadStringUntil(b.rx) == (line, rest);
    assert Trimmed(PING);
    TrimmedLineIs(line, PING);
    assert !LineSays(line, PING);
  }
}

=== FILE: top_controller.dfy ===
/**
 The network-facing board (v2 top controller): the WebSocket-to-UART bridge,
 the UART framing of outgoing commands, the Wi-Fi "connected" bit kept by the
 event handler, and the status LED that reads that bit.
 */
module TopController {
  import opened Common

  /** The `esp_err_t` success code; every other value is an error. */
  const ESP_OK: int := 0

  /** The command lines the bridge forwards to the LED board. */
  const CMD_LED_ON: seq<char> := "turn_ON_led"
  const CMD_LED_OFF: seq<char> := "turn_OFF_led"

  // ---------------------------------------------------------------------------
  // UART framing
  // ---------------------------------------------------------------------------

  /** The bytes `send_uart_command` puts on the UART: the `strlen(command)`
      bytes of the command, then one newline. */
  function SendUartCommand(command: seq<char>): (bytes: seq<char>)
    ensures |bytes| > 0 && bytes[|bytes| - 1] == '\n'
    ensures bytes[..|bytes| - 1] <= command
    ensures NUL !in bytes[..|bytes| - 1]
    ensures |bytes| - 1 == |command| || command[|bytes| - 1] == NUL
    ensures NUL !in command ==> bytes == command + "\n"
  {
    CString(command) + "\n"
  }

  // ---------------------------------------------------------------------------
  // WebSocket handler
  // ---------------------------------------------------------------------------

  /** An outgoing text frame: a pointer to a payload and the length written
      beside it. */
  datatype WsFrame = WsFrame(payload: seq<char>, len: nat)

  /** A text frame whose length field is exactly the length of its text. */
  function TextFrame(text: seq<char>): WsFrame
  {
    WsFrame(text, |text|)
  }

  /** What the HTTP server hands `ws_handler`: either the GET of the opening
      handshake, or a data frame together with the status codes of the two
      `httpd_ws_recv_frame` calls (the first learns the length, the second
      reads that many payload bytes). */
  datatype WsRequest =
    | Handshake
    | DataFrame(lengthRet: int, payload: seq<char>, payloadRet: int)

  /** What one call of `ws_handler` does: its return code, the bytes it
      writes to the UART (if any) and the frame it sends back (if any). */
  datatype WsOutcome = WsOutcome(ret: int, uart: Option<seq<char>>, reply: Option<WsFrame>)

  /** The frame's payload arrived whole and non-empty, so the handler looks at it. */
  predicate Delivered(req: WsRequest)
  {
    req.DataFrame? && req.lengthRet == ESP_OK && |req.payload| > 0 && req.payloadRet == ESP_OK
  }

  /** The payload as `strcmp` sees it: its bytes before the first NUL. */
  function Word(req: WsRequest): seq<char>
  {
    if req.DataFrame? then CString(req.payload) else []
  }

  /** The two command lines leave the bridge with exactly one newline each. */
  lemma CommandLines()
    ensures SendUartCommand(CMD_LED_ON) == "turn_ON_led\n"
    ensures SendUartCommand(CMD_LED_OFF) == "turn_OFF_led\n"
  {
    assert NUL !in CMD_LED_ON;
    assert NUL !in CMD_LED_OFF;
  }

  /** The line `ws_handler` forwards to the UART for a delivered word:
      "ON" and "OFF" forward their command line, every other word nothing. */
  function ForwardedLine(word: seq<char>): (line: Option<seq<char>>)
    ensures line == Some(SendUartCommand(CMD_LED_ON)) <==> word == "ON"
    ensures line == Some(SendUartCommand(CMD_LED_OFF)) <==> word == "OFF"
    ensures line.Some? <==> word == "ON" || word == "OFF"
  {
    if word == "ON" then Some(SendUartCommand(CMD_LED_ON))
    else if word == "OFF" then Some(SendUartCommand(CMD_LED_OFF))
    else None
  }

  /** The frame `ws_handler` sends back for a delivered word: "ON" and
      "OFF" echo the new status, "PING" is answered with "PONG", every other
      word gets no reply. Each frame's hard-coded length is the length of
      its text. */
  function Reply(word: seq<char>): (frame: Option<WsFrame>)
    ensures frame == Some(TextFrame("STATUS:ON")) <==> word == "ON"
    ensures frame == Some(TextFrame("STATUS:OFF")) <==> word == "OFF"
    ensures frame == Some(TextFrame("PONG")) <==> word == "PING"
    ensures frame.Some? <==> word == "ON" || word == "OFF" || word == "PING"
  {
    if word == "ON" then Some(WsFrame("STATUS:ON", 9))
    else if word == "OFF" then Some(WsFrame("STATUS:OFF", 10))
    else if word == "PING" then Some(WsFrame("PONG", 4))
    else None
  }

  /** `ws_handler`: the handshake and every receive error do nothing; a
      delivered payload is compared, up to its first NUL, with the three
      words of the protocol. */
  function WsHandler(req: WsRequest): (r: WsOutcome)
    ensures r.ret == ESP_OK <==>
              req.Handshake? || (req.lengthRet == ESP_OK && (|req.payload| == 0 || req.payloadRet == ESP_OK))
    ensures !Delivered(req) ==> r.uart == None && r.reply == None
    ensures Delivered(req) ==> r.uart == ForwardedLine(Word(req)) && r.reply == Reply(Word(req))
  {
    match req
    case Handshake => WsOutcome(ESP_OK, None, None)
    case DataFrame(lengthRet, payload, payloadRet) =>
      if lengthRet != ESP_OK then WsOutcome(lengthRet, None, None)
      else if |payload| == 0 then WsOutcome(lengthRet, None, None)
      else if payloadRet != ESP_OK then WsOutcome(payloadRet, None, None)
      else
        CStringTerminated(payload);
        var text := CString(payload + [NUL]);
        WsOutcome(payloadRet, ForwardedLine(text), Reply(text))
  }

  /** Matching is exact and case-sensitive: near misses of the three words,
      and the empty frame, are ignored. */
  lemma WsIgnoresNearMisses()
    ensures WsHandler(DataFrame(ESP_OK, "on", ESP_OK)) == WsOutcome(ESP_OK, None, None)
    ensures WsHandler(DataFrame(ESP_OK, "ON ", ESP_OK)) == WsOutcome(ESP_OK, None, None)
    ensures WsHandler(DataFrame(ESP_OK, "Ping", ESP_OK)) == WsOutcome(ESP_OK, None, None)
    ensures WsHandler(DataFrame(ESP_OK, "", ESP_OK)) == WsOutcome(ESP_OK, None, None)
  {
    assert Word(DataFrame(ESP_OK, "ON ", ESP_OK)) == "ON ";
    assert Word(DataFrame(ESP_OK, "on", ESP_OK)) == "on";
    assert Word(DataFrame(ESP_OK, "Ping", ESP_OK)) == "Ping";
  }

  /** `strcmp` stops at the first NUL: whatever follows a NUL in a
      non-empty payload is never looked at. */
  lemma WsStopsAtNul(lengthRet: int, word: seq<char>, junk: seq<char>, payloadRet: int)
    requires |word| > 0
    ensures WsHandler(DataFrame(lengthRet, CString(word) + [NUL] + junk, payloadRet))
         == WsHandler(DataFrame(lengthRet, word, payloadRet))
  {
    var p := CString(word) + [NUL] + junk;
    TakeUntilFramed(CString(word), NUL, junk, {NUL});
    assert Word(DataFrame(lengthRet, p, payloadRet)) == CString(word);
  }

  // ---------------------------------------------------------------------------
  // Wi-Fi connected bit
  // ---------------------------------------------------------------------------

  datatype WifiEvent = StaStart | StaDisconnected | GotIp | OtherWifiEvent

  /** The calls `wifi_event_handler` makes besides touching the bit. */
  datatype WifiAction = Connect | StartServer | NoAction

  /** `wifi_event_handler`: GOT_IP sets the connected bit, STA_DISCONNECTED
      clears it, every other event leaves it alone. */
  function OnWifiEvent(connected: bool, e: WifiEvent): (r: (bool, WifiAction))
    ensures r.0 != connected ==> (e == GotIp || e == StaDisconnected)
    ensures r.1 == Connect <==> e == StaStart || e == StaDisconnected
    ensures e == GotIp ==> r == (true, StartServer)
    ensures e == StaDisconnected ==> !r.0
  {
    match e
    case StaStart => (connected, Connect)
    case StaDisconnected => (false, Connect)
    case GotIp => (true, StartServer)
    case OtherWifiEvent => (connected, NoAction)
  }

  /** The bit after a run of events, starting from the cleared bits of a new event group. */
  function ConnectedAfter(events: seq<WifiEvent>): bool
  {
    if |events| == 0 then false
    else OnWifiEvent(ConnectedAfter(events[..|events| - 1]), events[|events| - 1]).0
  }

  /** Some GOT_IP happened and no STA_DISCONNECTED came after it. */
  ghost predicate GotIpSinceDisconnect(events: seq<WifiEvent>)
  {
    exists i :: 0 <= i < |events| && events[i] == GotIp &&
      forall j :: i < j < |events| ==> events[j] != StaDisconnected
  }

  /** The connected bit reflects the latest of GOT_IP and STA_DISCONNECTED. */
  lemma {:induction false} ConnectedIffGotIpSinceDisconnect(events: seq<WifiEvent>)
    ensures ConnectedAfter(events) <==> GotIpSinceDisconnect(events)
    decreases |events|
  {
    if |events| > 0 {
      var n := |events| - 1;
      var init := events[..n];
      ConnectedIffGotIpSinceDisconnect(init);
      match events[n]
      case GotIp =>
        assert events[n] == GotIp;
      case StaDisconnected =>
      case _ =>
        if GotIpSinceDisconnect(init) {
          var i :| 0 <= i < |init| && init[i] == GotIp &&
                   forall j :: i < j < |init| ==> init[j] != StaDisconnected;
          assert events[i] == GotIp;
        }
        if GotIpSinceDisconnect(events) {
          var i :| 0 <= i < |events| && events[i] == GotIp &&
                   forall j :: i < j < |events| ==> events[j] != StaDisconnected;
          assert i < n;
          assert init[i] == GotIp;
        }
    }
  }

  // ---------------------------------------------------------------------------
  // Status LED
  // ---------------------------------------------------------------------------

  /** The levels one pass of `status_led_task` writes: steadily off while
      connected, a blink (on, then off) otherwise. */
  function StatusLedPass(connected: bool): (levels: seq<Level>)
    ensures |levels| > 0 && levels[|levels| - 1] == Low
    ensures connected <==> forall i :: 0 <= i < |levels| ==> levels[i] == Low
  {
    if connected then [Low]
    else
      var blink := [High, Low];
      assert blink[0] != Low;
      blink
  }

  /** After any run of Wi-Fi events, the status LED stays dark exactly when
      an IP was obtained and not lost since. */
  lemma StatusLedDarkIffConnected(events: seq<WifiEvent>)
    ensures (forall l :: l in StatusLedPass(ConnectedAfter(events)) ==> l == Low)
            <==> GotIpSinceDisconnect(events)
  {
    ConnectedIffGotIpSinceDisconnect(events);
    var levels := StatusLedPass(ConnectedAfter(events));
    if !ConnectedAfter(events) {
      assert High in levels;
    }
  }
}
